=== FILE: README.md ===
# HttpsCertExperiments in Dafny

A model of the certificate-construction core of HttpsCertExperiments. This small
.NET console program issues a local two-tier TLS chain for development:

- a self-signed root, `CN=ASP.NET Core CA`;
- a `CN=localhost` server certificate signed by that root.

Both certificates carry a private, non-critical marker extension
(`1.3.6.1.4.1.311.84.1.1`, one byte holding the format version 2). A cleanup step
uses it to find the tool's own certificates in the user's store.

The model has six modules:

- `Results`: the errors the model distinguishes and a `Result` wrapper. They
  are the key-size guard's exception and the platform checks the model
  represents. Other platform failures are listed under "## Left out".
- `X509`: the values a certificate is made of:
  - object identifiers;
  - typed extensions (basic constraints, key usage, enhanced key usage, subject
    alternative name, raw);
  - validity windows;
  - RSA keys, a class whose object identity stands for the key material;
  - issued certificates.
- `Platform`: the observable effect of the platform calls the program makes:
  - `RSA.Create`, with the size it yields supplied by an abstract `provider`;
  - the certificate request, a class whose extension collection grows by
    `AddExtension`;
  - `CreateSelfSigned` and `Create(issuer, …)`, with the issuer checks and the duplicate-extension check the
    platform makes;
  - the SAN builder and `CopyWithPrivateKey`.
- `Validity`: the two validity windows. Time is seconds on an integer line and
  "one year later" is an abstract function.
- `Cleanup`: the selection in `ClearCertificates`.
- `Program`: the program itself:
  - the constants;
  - the two extension lists, built by successive appends;
  - the key-size guard;
  - the two issuers, each copying extensions into the request with a loop;
  - the root and localhost builders;
  - `Run`, the fixed sequence of `Main`.

The core results:

- Each role's extension list is exactly the documented one, in order, with its
  critical flags. No OID repeats, and the marker is present.
- The root passes the platform's issuer checks. The localhost certificate cannot
  sign, because its basic constraints deny the CA role.
- A key below 2048 bits aborts issuance with the guard's error.
- Issued certificates carry exactly the extensions they were given.
- The leaf is named after the root's subject, signed with the root's private key
  and bound to a new key of its own.
- The cleanup selection:
  - keeps exactly the marked certificates, with their multiplicity;
  - preserves store order;
  - is idempotent;
  - picks both certificates a run issues.
- The windows:
  - are ordered when the readings are in order and adding a year moves time
    forward;
  - nest when the clock is read once;
  - also nest when the readings do not decrease, the two expiry readings are
    at most 5 s apart, and adding a year keeps their gap;
  - can fail to nest when the readings are further apart;
  - can also fail to nest when adding a year does not keep the gap, even for
    readings 3 s apart. This happens on a calendar when the two readings
    straddle the end of February before a leap year.

## Model

| member | source | states |
|---|---|---|
| `Platform.CreateRsa` | HttpsCertExperiments/Program.cs:181 | a new key object whose size is what the provider yields for the requested size |
| `Platform.SubjectAlternativeNameBuilder.constructor` | HttpsCertExperiments/Program.cs:120 | a new SAN builder holds no DNS names |
| `Platform.SubjectAlternativeNameBuilder.AddDnsName` | HttpsCertExperiments/Program.cs:121 | the DNS name is appended to those already added |
| `Platform.SubjectAlternativeNameBuilder.Build` | HttpsCertExperiments/Program.cs:154 | the built extension has the SAN OID, the requested critical flag and exactly the added DNS names |
| `Platform.CertificateRequest.constructor` | HttpsCertExperiments/Program.cs:168 | a request records subject, key, SHA-256 and PKCS#1 padding, and starts with no extensions |
| `Platform.CertificateRequest.AddExtension` | HttpsCertExperiments/Program.cs:171 | the request's extension collection grows by exactly that extension at the end |
| `Platform.CertificateRequest.CreateSelfSigned` | HttpsCertExperiments/Program.cs:175 | succeeds exactly when the window is not reversed and no extension OID repeats (otherwise the error names the first repeated OID); then issuer = subject, signed by and bound to the request's own key, with the request's extensions and window |
| `X509.FirstRepeatedOid` | HttpsCertExperiments/Program.cs:175 | the platform's duplicate-extension check when building a certificate: it finds nothing exactly when no OID repeats, and anything it finds occurs at two positions |
| `Platform.MaySignCertificates` | HttpsCertExperiments/Program.cs:207 | the issuer checks of the signing call: a bound private key, a basic-constraints extension that is present and marks a CA, and KeyCertSign in the key usage when that extension is present; a signer therefore holds a private key and declares itself a CA |
| `Platform.CertificateRequest.Create` | HttpsCertExperiments/Program.cs:207 | succeeds exactly when the issuer may sign (private key present, basic constraints present and marking a CA, KeyCertSign usage) and the window is ordered and inside the issuer's and no extension OID repeats; then issuer name = issuer's subject, signed with the issuer's private key, no private key bound |
| `Platform.CopyWithPrivateKey` | HttpsCertExperiments/Program.cs:208 | binds the key exactly when the certificate has none yet and the key is its public key; nothing else changes |
| `Validity.HttpsValidity` | HttpsCertExperiments/Program.cs:48 | the leaf window starts at the first reading and, when adding a year moves time forward, ends after the second reading |
| `Validity.CaValidity` | HttpsCertExperiments/Program.cs:53-54 | the root window is the leaf window computed from the same readings with its end moved PadSeconds (5 s) later |
| `Validity.CaValidityIsNonEmpty` | HttpsCertExperiments/Program.cs:53-54 | the root window [now, addYear(now') + 5] has notBefore < notAfter when the readings are in order and adding a year moves time forward |
| `Validity.HttpsValidityIsNonEmpty` | HttpsCertExperiments/Program.cs:48 | the leaf window [now, addYear(now')] has notBefore < notAfter when the readings are in order and adding a year moves time forward |
| `Validity.SameReadingNests` | HttpsCertExperiments/Program.cs:48-54 | for one clock reading the leaf window lies inside the root's and expires strictly before it |
| `Validity.PadCoversShortDelay` | HttpsCertExperiments/Program.cs:48-54 | with non-decreasing readings at most 5 s apart and a year that keeps that gap, the leaf window lies inside the root's |
| `Validity.PadCanBeExceeded` | HttpsCertExperiments/Program.cs:48-54 | with a 365-day year and readings 6 s apart the leaf outlives the root, so the pad does not guarantee nesting |
| `Validity.PadInsufficientForLongerDelay` | HttpsCertExperiments/Program.cs:48-54 | whenever the leaf's expiry reading is more than 5 s after the root's and adding a year keeps that gap, the leaf outlives the root and its window is not inside the root's |
| `Validity.UnevenYearBreaksNesting` | HttpsCertExperiments/Program.cs:48-54 | with a forward-moving year that is one day longer from the leaf's expiry reading on (the end of February before a leap year), readings 3 s apart give a leaf that outlives the root |
| `Cleanup.CarriesMarker` | HttpsCertExperiments/Program.cs:103-104 | a certificate has some extension with OID 1.3.6.1.4.1.311.84.1.1 exactly when a lookup of that OID in its extensions finds one |
| `Cleanup.SelectForRemoval` | HttpsCertExperiments/Program.cs:102-105 | every selected certificate is in the store and carries the marker OID, and every store certificate carrying it is selected |
| `Cleanup.SelectionPreservesOrder` | HttpsCertExperiments/Program.cs:102-105 | selection distributes over concatenation, so store order is kept |
| `Cleanup.SelectionIsIdempotent` | HttpsCertExperiments/Program.cs:102-105 | selecting from a selection changes nothing |
| `Cleanup.SelectionKeepsMultiplicity` | HttpsCertExperiments/Program.cs:102-105 | a marked certificate occurs in the selection as often as in the store, an unmarked one never |
| `Program.ToByte` | HttpsCertExperiments/Program.cs:82 | the byte cast keeps the value modulo 256, and keeps it unchanged when it is in 0..255 |
| `Program.CreateMarkerExtension` | HttpsCertExperiments/Program.cs:81-88 | the marker has OID 1.3.6.1.4.1.311.84.1.1, is not critical, and its payload is the single byte 2 |
| `Program.CreateCaExtensions` | HttpsCertExperiments/Program.cs:57-93 | the root list is exactly basic constraints (CA, path length 1), key usage {CrlSign, DigitalSignature, KeyCertSign, NonRepudiation}, EKU [server authentication], all critical, then the marker; no OID repeats |
| `Program.CreateHttpsExtensions` | HttpsCertExperiments/Program.cs:119-155 | the leaf list is exactly basic constraints (not CA, no path length), key usage {KeyEncipherment, DigitalSignature}, EKU [server authentication], SAN [localhost], all critical, then the marker; no OID repeats |
| `Program.CaProfileIsWellFormed` | HttpsCertExperiments/Program.cs:90-93 | the root list has distinct OIDs, and looking up basic constraints, key usage and the marker finds the listed entries |
| `Program.HttpsProfileIsWellFormed` | HttpsCertExperiments/Program.cs:151-155 | the leaf list has distinct OIDs, and looking up basic constraints, key usage and the marker finds the listed entries |
| `Program.ProfilesAreSelectedForCleanup` | HttpsCertExperiments/Program.cs:104 | a certificate with either list is picked by the cleanup query, whose literal OID matches the marker constant |
| `Program.OnlyTheCaMaySign` | HttpsCertExperiments/Program.cs:75-79 | of the two lists, only the root's (with a bound private key) passes the platform's issuer checks |
| `Program.CheckKeySize` | HttpsCertExperiments/Program.cs:182-185 | the key is accepted exactly when its size is at least the minimum; otherwise the guard's error names that minimum |
| `Program.CreateKeyMaterial` | HttpsCertExperiments/Program.cs:179-189 | fails with the guard's error exactly when the provider yields fewer bits than asked; otherwise a new key of at least that size (also lines 210-220) |
| `Program.CopyExtensions` | HttpsCertExperiments/Program.cs:169-172 | the request ends with its old extensions followed by the given ones, in order (also lines 202-205) |
| `Program.CreateSelfSignedCertificate` | HttpsCertExperiments/Program.cs:160-190 | fails on a short key, a reversed window or a repeated extension OID, and otherwise yields a certificate with issuer = subject, exactly the given extensions, signed by and bound to a new key of at least 2048 bits |
| `Program.CreateCertificate` | HttpsCertExperiments/Program.cs:192-221 | fails on a short key, a failed issuer/window check or a repeated extension OID, and otherwise yields a certificate named after the issuer's subject, signed with its private key, with the 16-byte serial, exactly the given extensions, and bound to its own new key |
| `Program.CreateCaCertificate` | HttpsCertExperiments/Program.cs:51-96 | the root is self-signed, `CN=ASP.NET Core CA`, has the root list and the root window, and is bound to its key |
| `Program.CreateAspNetCoreHttpsDevelopmentCertificate` | HttpsCertExperiments/Program.cs:116-158 | the leaf is `CN=localhost`, issued by the given CA, with the leaf list and the given window; success exactly when the key, issuer and window checks pass |
| `Program.CreateHttpsCertificate` | HttpsCertExperiments/Program.cs:46-49 | the leaf gets the window [now, addYear(now')] |
| `Program.Run` | HttpsCertExperiments/Program.cs:19-28 | succeeds exactly when keys reach 2048 bits and the windows are ordered and nested; then a CA root and a non-CA localhost leaf are issued by it on an independent key, and both are picked by the cleanup selection |
| `Program.SteadyClockPermitsIssuance` | HttpsCertExperiments/Program.cs:48-54 | a non-decreasing clock whose two expiry readings are at most 5 s apart, with a year that keeps their gap, lets the run pass its window checks |

## Left out

- Certificate store I/O is left out: `SaveCertificate`, and the open, `RemoveRange`, close and `Dispose` calls of `ClearCertificates`. Only the selection is modelled. `RemoveRange` acts on the collection returned by `store.Certificates`, so its effect on the store is unclear, and the contents of the store after a run are not modelled.
- `ExportCertificate` is left out: PKCS#12 export under the fixed password and the file writes are I/O.
- Cryptography is left out: RSA key generation, signing and DER/ASN.1 encoding. A signature is represented by the key that made it (`signingKey`).
- Platform failures beyond the checks in `Platform.CertificateRequest.CreateSelfSigned` and `Platform.CertificateRequest.Create` are left out, for example a failure inside `RSA.Create`, name encoding and an empty serial. They are not `Error` values. When several checks fail, which error is raised first is a choice of this model.
- `DateTime.Now` and `AddYears` are not modelled as a clock or a calendar. So the nesting lemmas assume a year that keeps the gap between the two expiry readings. `AddYears` does not keep it when the readings straddle the end of February in the year before a leap year. `Validity.UnevenYearBreaksNesting` shows the resulting failure in the abstract.
  - the clock readings are parameters, in whole seconds;
  - "one year later" is an abstract function;
  - sub-second precision, local time and the truncation of validity dates by the encoding are not represented.
- The randomness of `Guid.NewGuid()` is left out: the serial is an arbitrary 16-byte input.
- The sign of the serial's DER INTEGER encoding is not modelled. A first byte of 0x80 or more encodes a negative serial, and the program does not guard against it. This is a possible gap, not something the model corrects.
- The serial that `CreateSelfSigned` draws for the root is a parameter.
- Friendly names of the typed extensions' OIDs are not modelled. The cleanup query compares only OID values.
- The platform does not signal an empty window (notAfter equal to notBefore), and neither does the model. Non-emptiness is proved separately by the `Validity` lemmas.
- Run: both key creations ask the same `provider` function, so a run in which only the leaf's key comes out short is not represented.

=== FILE: cleanup.dfy ===
/** The selection made by ClearCertificates: of the certificates in the store,
    those that carry an extension with the tool's marker identifier. Removing
    them from the store is not part of this model. */
module Cleanup {
  import opened X509

  /** The identifier the selection looks for, written out at the call site. */
  const ClearedExtensionOid := "1.3.6.1.4.1.311.84.1.1"

  /** Some extension of `c` has the marker identifier (the `Any` of the query). */
  predicate CarriesMarker(c: Certificate)
    ensures CarriesMarker(c) <==> FindExtension(c.extensions, ClearedExtensionOid).Some?
  {
    exists e :: e in c.extensions && e.Oid() == ClearedExtensionOid
  }

  /** The `Where` of the query: the certificates carrying the marker, in store order. */
  function SelectForRemoval(certificates: seq<Certificate>): (selected: seq<Certificate>)
    ensures forall i :: 0 <= i < |selected| ==> selected[i] in certificates && CarriesMarker(selected[i])
    ensures forall i :: 0 <= i < |certificates| && CarriesMarker(certificates[i]) ==> certificates[i] in selected
    ensures |selected| <= |certificates|
  {
    if certificates == [] then []
    else if CarriesMarker(certificates[0]) then [certificates[0]] + SelectForRemoval(certificates[1..])
    else SelectForRemoval(certificates[1..])
  }

  /** Selection distributes over concatenation: it keeps the relative order of
      the store and looks at each certificate on its own. */
  lemma {:induction false} SelectionPreservesOrder(front: seq<Certificate>, back: seq<Certificate>)
    ensures SelectForRemoval(front + back) == SelectForRemoval(front) + SelectForRemoval(back)
  {
    if front == [] {
      assert front + back == back;
    } else {
      assert (front + back)[0] == front[0];
      assert (front + back)[1..] == front[1..] + back;
      SelectionPreservesOrder(front[1..], back);
    }
  }

  /** Selecting again from a selection changes nothing. */
  lemma {:induction false} SelectionIsIdempotent(certificates: seq<Certificate>)
    ensures SelectForRemoval(SelectForRemoval(certificates)) == SelectForRemoval(certificates)
  {
    if certificates != [] {
      SelectionIsIdempotent(certificates[1..]);
    }
  }

  /** Every marked certificate is selected as often as it occurs in the store,
      every unmarked one never. */
  lemma {:induction false} SelectionKeepsMultiplicity(certificates: seq<Certificate>, c: Certificate)
    ensures multiset(SelectForRemoval(certificates))[c]
            == if CarriesMarker(c) then multiset(certificates)[c] else 0
  {
    if certificates != [] {
      assert certificates == [certificates[0]] + certificates[1..];
      SelectionKeepsMultiplicity(certificates[1..], c);
    }
  }
}

=== FILE: platform.dfy ===
/** The platform calls the certificate tool makes, reduced to their observable
    effect: key creation, the certificate request and its two ways of producing
    a certificate, the SAN builder and binding a private key. No encoding or
    cryptography is modelled. */
module Platform {
  import opened Results
  import opened X509

  /** RSA.Create(keySizeInBits): a new key whose size is what the underlying
      provider actually yields for the requested size. */
  method CreateRsa(keySizeInBits: int, provider: int -> int) returns (rsa: RsaKey)
    ensures fresh(rsa)
    ensures rsa.keySize == provider(keySizeInBits)
  {
    rsa := new RsaKey(provider(keySizeInBits));
  }

  /** The issuer checks the platform makes before signing with a certificate:
      it must hold a private key, its basic-constraints extension must be
      present and mark it as a certificate authority, and its key-usage
      extension, when present, must include KeyCertSign. */
  predicate MaySignCertificates(issuer: Certificate)
    ensures MaySignCertificates(issuer) ==>
      && issuer.privateKey.Some?
      && exists e :: e in issuer.extensions && e.value.BasicConstraints? && e.value.certificateAuthority
  {
    && issuer.privateKey.Some?
    && (match FindExtension(issuer.extensions, BasicConstraintsOid)
        case Some(e) => e.value.BasicConstraints? && e.value.certificateAuthority
        case None => false)
    && (match FindExtension(issuer.extensions, KeyUsageOid)
        case Some(e) => !e.value.KeyUsage? || KeyCertSign in e.value.usages
        case None => true)
  }

  /** Builds a SubjectAltName extension from DNS names added one at a time. */
  class SubjectAlternativeNameBuilder {
    var dnsNames: seq<string>

    constructor ()
      ensures dnsNames == []
    {
      dnsNames := [];
    }

    method AddDnsName(dnsName: string)
      modifies this
      ensures dnsNames == old(dnsNames) + [dnsName]
    {
      dnsNames := dnsNames + [dnsName];
    }

    function Build(critical: bool): (e: Extension)
      reads this
      ensures e.Oid() == SubjectAltNameOid && e.critical == critical
      ensures e.value.SubjectAltName? && e.value.dnsNames == dnsNames
    {
      Extension(SubjectAltName(dnsNames), critical)
    }
  }

  /** A request for a certificate: a subject, the key to certify, a fixed
      signature scheme and the extensions collected so far. Both ways of
      producing a certificate refuse extensions that repeat an identifier. */
  class CertificateRequest {
    const subjectName: string
    const key: RsaKey
    const hashAlgorithm: HashAlgorithmName
    const padding: RsaSignaturePadding
    var certificateExtensions: seq<Extension>

    constructor (subjectName: string, key: RsaKey, hashAlgorithm: HashAlgorithmName, padding: RsaSignaturePadding)
      ensures this.subjectName == subjectName && this.key == key
      ensures this.hashAlgorithm == hashAlgorithm && this.padding == padding
      ensures certificateExtensions == []
    {
      this.subjectName := subjectName;
      this.key := key;
      this.hashAlgorithm := hashAlgorithm;
      this.padding := padding;
      certificateExtensions := [];
    }

    /** CertificateExtensions.Add: appends one extension. */
    method AddExtension(extension: Extension)
      modifies this
      ensures certificateExtensions == old(certificateExtensions) + [extension]
    {
      certificateExtensions := certificateExtensions + [extension];
    }

    /** CreateSelfSigned: the request's own key signs it, the issuer is the
        subject and the private key stays bound. `serialNumber` is the serial
        the platform draws for it. */
    function CreateSelfSigned(notBefore: int, notAfter: int, serialNumber: seq<byte>): (r: Result<Certificate>)
      reads this
      ensures r.Success? <==> notBefore <= notAfter && DistinctOids(certificateExtensions)
      ensures notAfter < notBefore ==> r == Failure(DatesReversed)
      ensures notBefore <= notAfter && !DistinctOids(certificateExtensions) ==> r.Failure? && r.error.DuplicateExtension?
      ensures r.Success? ==>
        && r.value.IsSelfSigned()
        && r.value.subject == subjectName
        && r.value.publicKey == key && r.value.privateKey == Some(key)
        && r.value.extensions == certificateExtensions
        && r.value.validity == Window(notBefore, notAfter)
        && r.value.serialNumber == serialNumber
        && r.value.hashAlgorithm == hashAlgorithm && r.value.padding == padding
    {
      if notAfter < notBefore then Failure(DatesReversed)
      else if FirstRepeatedOid(certificateExtensions).Some? then
        Failure(DuplicateExtension(FirstRepeatedOid(certificateExtensions).value))
      else Success(Certificate(subjectName, subjectName, serialNumber, Window(notBefore, notAfter),
                               certificateExtensions, key, Some(key), key, hashAlgorithm, padding))
    }

    /** Create(issuerCertificate, ...): the issuer's private key signs the
        request, the issuer name is the issuer's subject, the window must lie
        within the issuer's, and no private key is bound to the result. */
    function Create(issuerCertificate: Certificate, notBefore: int, notAfter: int, serialNumber: seq<byte>): (r: Result<Certificate>)
      reads this
      ensures r.Success? <==>
        MaySignCertificates(issuerCertificate) && Window(notBefore, notAfter).IsOrdered()
        && issuerCertificate.validity.Contains(Window(notBefore, notAfter))
        && DistinctOids(certificateExtensions)
      ensures r.Success? ==>
        && r.value.subject == subjectName
        && r.value.issuer == issuerCertificate.subject
        && issuerCertificate.privateKey == Some(r.value.signingKey)
        && r.value.publicKey == key && r.value.privateKey == None
        && r.value.extensions == certificateExtensions
        && r.value.validity == Window(notBefore, notAfter)
        && r.value.serialNumber == serialNumber
        && r.value.hashAlgorithm == hashAlgorithm && r.value.padding == padding
    {
      if issuerCertificate.privateKey.None? then Failure(IssuerHasNoPrivateKey)
      else if notAfter < notBefore then Failure(DatesReversed)
      else if !MaySignCertificates(issuerCertificate) then
        (match FindExtension(issuerCertificate.extensions, BasicConstraintsOid)
         case Some(e) =>
           if !(e.value.BasicConstraints? && e.value.certificateAuthority) then Failure(IssuerNotCertificateAuthority)
           else Failure(IssuerKeyUsageInadequate)
         case None => Failure(IssuerBasicConstraintsMissing))
      else if notBefore < issuerCertificate.validity.notBefore then Failure(NotBeforeNotNested)
      else if issuerCertificate.validity.notAfter < notAfter then Failure(NotAfterNotNested)
      else if FirstRepeatedOid(certificateExtensions).Some? then
        Failure(DuplicateExtension(FirstRepeatedOid(certificateExtensions).value))
      else Success(Certificate(subjectName, issuerCertificate.subject, serialNumber, Window(notBefore, notAfter),
                               certificateExtensions, key, None, issuerCertificate.privateKey.value,
                               hashAlgorithm, padding))
    }
  }

  /** CopyWithPrivateKey: binds the matching private key to a certificate that
      has none. */
  function CopyWithPrivateKey(certificate: Certificate, key: RsaKey): (r: Result<Certificate>)
    ensures r.Success? <==> certificate.privateKey.None? && key == certificate.publicKey
    ensures r.Success? ==> r.value == certificate.(privateKey := Some(key))
  {
    if certificate.privateKey.Some? then Failure(AlreadyHasPrivateKey)
    else if key != certificate.publicKey then Failure(PrivateKeyMismatch)
    else Success(certificate.(privateKey := Some(key)))
  }
}

=== FILE: program.dfy ===
/** The certificate tool: the extension lists of the two certificate roles, the
    key-size guard, the two issuers and the fixed run that creates a root and a
    localhost certificate signed by it. */
module Program {
  import opened Results
  import opened X509
  import opened Platform
  import opened Validity
  import opened Cleanup

  // Identity constants of the tool.
  const Subject := "CN=localhost"
  const CaSubject := "CN=ASP.NET Core CA"
  const LocalhostDnsName := "localhost"
  const AspNetHttpsCertificateVersion := 2
  const ServerAuthenticationEnhancedKeyUsageOid := "1.3.6.1.5.5.7.3.1"
  const ServerAuthenticationEnhancedKeyUsageOidFriendlyName := "Server Authentication"
  const AspNetHttpsOid := "1.3.6.1.4.1.311.84.1.1"
  const AspNetHttpsOidFriendlyName := "ASP.NET Core HTTPS development certificate"

  /** The key size both issuers ask for. */
  const MinimumKeySize := 2048

  const ServerAuthentication := ObjectId(ServerAuthenticationEnhancedKeyUsageOid, ServerAuthenticationEnhancedKeyUsageOidFriendlyName)

  /** The 16 bytes of a GUID, used as the leaf's serial number. */
  type Guid = s: seq<byte> | |s| == 16 witness [0, 0, 0, 0, 0, 0, 0, 0, 0, 0, 0, 0, 0, 0, 0, 0]

  // ---------------------------------------------------------------------------
  // Extension lists

  /** An unchecked cast of an integer to a byte: it keeps the low eight bits. */
  function ToByte(v: int): (b: byte)
    ensures (v - b as int) % 256 == 0
    ensures 0 <= v < 256 ==> b as int == v
  {
    (v % 256) as byte
  }

  /** The marker: the tool's own identifier, not critical, and one byte of
      payload holding the format version. */
  predicate IsAspNetHttpsMarker(e: Extension) {
    && e.Oid() == AspNetHttpsOid
    && !e.critical
    && e.value.Raw?
    && e.value.rawData == [AspNetHttpsCertificateVersion as byte]
  }

  /** The root's extensions, in order. */
  predicate IsCaProfile(extensions: seq<Extension>) {
    && |extensions| == 4
    && extensions[0] == Extension(BasicConstraints(true, true, 1), true)
    && extensions[1] == Extension(KeyUsage({CrlSign, DigitalSignature, KeyCertSign, NonRepudiation}), true)
    && extensions[2] == Extension(EnhancedKeyUsage([ServerAuthentication]), true)
    && IsAspNetHttpsMarker(extensions[3])
  }

  /** The localhost certificate's extensions, in order. */
  predicate IsHttpsProfile(extensions: seq<Extension>) {
    && |extensions| == 5
    && extensions[0] == Extension(BasicConstraints(false, false, 0), true)
    && extensions[1] == Extension(KeyUsage({KeyEncipherment, DigitalSignature}), true)
    && extensions[2] == Extension(EnhancedKeyUsage([ServerAuthentication]), true)
    && extensions[3] == Extension(SubjectAltName([LocalhostDnsName]), true)
    && IsAspNetHttpsMarker(extensions[4])
  }

  /** Builds the marker extension from a one-byte payload array. */
  method CreateMarkerExtension() returns (e: Extension)
    ensures IsAspNetHttpsMarker(e)
  {
    var bytePayload := new byte[1];
    bytePayload[0] := ToByte(AspNetHttpsCertificateVersion);
    e := Extension(Raw(ObjectId(AspNetHttpsOid, AspNetHttpsOidFriendlyName), bytePayload[..]), false);
  }

  /** The extension list assembled by CreateCaCertificate. */
  method CreateCaExtensions() returns (extensions: seq<Extension>)
    ensures IsCaProfile(extensions)
    ensures DistinctOids(extensions)
  {
    var keyUsage := Extension(KeyUsage({CrlSign, DigitalSignature, KeyCertSign, NonRepudiation}), true);
    var enhancedKeyUsage := Extension(EnhancedKeyUsage([ServerAuthentication]), true);
    var basicConstraints := Extension(BasicConstraints(true, true, 1), true);
    var aspNetHttpsExtension := CreateMarkerExtension();

    extensions := [];
    extensions := extensions + [basicConstraints];
    extensions := extensions + [keyUsage];
    extensions := extensions + [enhancedKeyUsage];
    extensions := extensions + [aspNetHttpsExtension];
    CaProfileIsWellFormed(extensions);
  }

  /** The extension list assembled by CreateAspNetCoreHttpsDevelopmentCertificate. */
  method CreateHttpsExtensions() returns (extensions: seq<Extension>)
    ensures IsHttpsProfile(extensions)
    ensures DistinctOids(extensions)
  {
    var sanBuilder := new SubjectAlternativeNameBuilder();
    sanBuilder.AddDnsName(LocalhostDnsName);
    var keyUsage := Extension(KeyUsage({KeyEncipherment, DigitalSignature}), true);
    var enhancedKeyUsage := Extension(EnhancedKeyUsage([ServerAuthentication]), true);
    var basicConstraints := Extension(BasicConstraints(false, false, 0), true);
    var aspNetHttpsExtension := CreateMarkerExtension();

    extensions := [];
    extensions := extensions + [basicConstraints];
    extensions := extensions + [keyUsage];
    extensions := extensions + [enhancedKeyUsage];
    extensions := extensions + [sanBuilder.Build(true)];
    extensions := extensions + [aspNetHttpsExtension];
    HttpsProfileIsWellFormed(extensions);
  }

  /** The root's list repeats no identifier, and looking up each standard
      identifier finds the entry of the profile. */
  lemma CaProfileIsWellFormed(extensions: seq<Extension>)
    requires IsCaProfile(extensions)
    ensures DistinctOids(extensions)
    ensures FindExtension(extensions, BasicConstraintsOid) == Some(extensions[0])
    ensures FindExtension(extensions, KeyUsageOid) == Some(extensions[1])
    ensures FindExtension(extensions, AspNetHttpsOid) == Some(extensions[3])
  {
  }

  /** The localhost list repeats no identifier, and looking up each standard
      identifier finds the entry of the profile. */
  lemma HttpsProfileIsWellFormed(extensions: seq<Extension>)
    requires IsHttpsProfile(extensions)
    ensures DistinctOids(extensions)
    ensures FindExtension(extensions, BasicConstraintsOid) == Some(extensions[0])
    ensures FindExtension(extensions, KeyUsageOid) == Some(extensions[1])
    ensures FindExtension(extensions, AspNetHttpsOid) == Some(extensions[4])
  {
    assert BasicConstraintsOid[8] != KeyUsageOid[8];
    assert EnhancedKeyUsageOid[7] != KeyUsageOid[7];
    assert BasicConstraintsOid[7] != EnhancedKeyUsageOid[7];
    // These tell the solver where the OID literals differ; without them the
    // proof runs out of resources.
    assert SubjectAltNameOid[8] != BasicConstraintsOid[8];
    assert SubjectAltNameOid[8] != KeyUsageOid[8];
    assert SubjectAltNameOid[7] != EnhancedKeyUsageOid[7];
    assert AspNetHttpsOid[0] != BasicConstraintsOid[0];
    assert extensions[1..][1..][1..][1..] == [extensions[4]];
  }

  /** A certificate with either profile carries the marker under the identifier
      the cleanup selection looks for. */
  lemma ProfilesAreSelectedForCleanup(c: Certificate)
    requires IsCaProfile(c.extensions) || IsHttpsProfile(c.extensions)
    ensures CarriesMarker(c)
  {
  }

  /** A certificate with the root's extensions and a bound private key passes
      the platform's issuer checks; one with the localhost extensions does not,
      since its basic constraints deny it the certificate-authority role. */
  lemma OnlyTheCaMaySign(c: Certificate)
    requires IsCaProfile(c.extensions) || IsHttpsProfile(c.extensions)
    ensures MaySignCertificates(c) <==> IsCaProfile(c.extensions) && c.privateKey.Some?
  {
  }

  // ---------------------------------------------------------------------------
  // Key material

  /** The guard of CreateKeyMaterial: a key smaller than asked for is refused. */
  function CheckKeySize(rsa: RsaKey, minimumKeySize: int): (r: Result<RsaKey>)
    ensures r.Success? <==> rsa.keySize >= minimumKeySize
    ensures r.Success? ==> r.value == rsa
    ensures r.Failure? ==> r.error == KeyTooSmall(minimumKeySize)
  {
    if rsa.keySize < minimumKeySize then Failure(KeyTooSmall(minimumKeySize))
    else Success(rsa)
  }

  /** CreateKeyMaterial: a new key of at least the requested size, or the
      guard's error when the provider yields a smaller one. */
  method CreateKeyMaterial(minimumKeySize: int, provider: int -> int) returns (r: Result<RsaKey>)
    ensures r.Success? <==> provider(minimumKeySize) >= minimumKeySize
    ensures r.Failure? ==> r.error == KeyTooSmall(minimumKeySize)
    ensures r.Success? ==> fresh(r.value) && r.value.keySize >= minimumKeySize
  {
    var rsa := CreateRsa(minimumKeySize, provider);
    r := CheckKeySize(rsa, minimumKeySize);
  }

  // ---------------------------------------------------------------------------
  // Issuers

  /** The loop both issuers use to copy their extensions into the request. */
  method CopyExtensions(request: CertificateRequest, extensions: seq<Extension>)
    modifies request
    ensures request.certificateExtensions == old(request.certificateExtensions) + extensions
  {
    for i := 0 to |extensions|
      invariant request.certificateExtensions == old(request.certificateExtensions) + extensions[..i]
    {
      request.AddExtension(extensions[i]);
    }
  }

  /** CreateSelfSignedCertificate: a certificate whose issuer is its subject,
      signed by and bound to its own new key, carrying exactly the given
      extensions. `platformSerial` is the serial the platform draws for it. */
  method CreateSelfSignedCertificate(subject: string, extensions: seq<Extension>, notBefore: int, notAfter: int,
                                     provider: int -> int, platformSerial: seq<byte>)
    returns (r: Result<Certificate>)
    ensures r.Success? <==> provider(MinimumKeySize) >= MinimumKeySize && notBefore <= notAfter && DistinctOids(extensions)
    ensures provider(MinimumKeySize) < MinimumKeySize ==> r == Failure(KeyTooSmall(MinimumKeySize))
    ensures r.Success? ==>
      && r.value.subject == subject && r.value.IsSelfSigned()
      && r.value.extensions == extensions
      && r.value.validity == Window(notBefore, notAfter)
      && fresh(r.value.publicKey) && r.value.publicKey.keySize >= MinimumKeySize
      && r.value.privateKey == Some(r.value.publicKey)
      && r.value.hashAlgorithm == Sha256 && r.value.padding == Pkcs1
  {
    var key :- CreateKeyMaterial(MinimumKeySize, provider);
    var request := new CertificateRequest(subject, key, Sha256, Pkcs1);
    CopyExtensions(request, extensions);
    assert request.certificateExtensions == extensions;
    r := request.CreateSelfSigned(notBefore, notAfter, platformSerial);
  }

  /** CreateCertificate: a certificate signed with the issuer's private key,
      named after the issuer's subject, with a GUID as serial number, carrying
      exactly the given extensions and bound to its own new key. */
  method CreateCertificate(issuer: Certificate, subject: string, extensions: seq<Extension>,
                           notBefore: int, notAfter: int, provider: int -> int, serial: Guid)
    returns (r: Result<Certificate>)
    ensures r.Success? <==>
      && provider(MinimumKeySize) >= MinimumKeySize
      && MaySignCertificates(issuer) && Window(notBefore, notAfter).IsOrdered()
      && issuer.validity.Contains(Window(notBefore, notAfter))
      && DistinctOids(extensions)
    ensures provider(MinimumKeySize) < MinimumKeySize ==> r == Failure(KeyTooSmall(MinimumKeySize))
    ensures r.Success? ==>
      && r.value.subject == subject && r.value.issuer == issuer.subject
      && issuer.privateKey == Some(r.value.signingKey)
      && r.value.serialNumber == serial && |r.value.serialNumber| == 16
      && r.value.extensions == extensions
      && r.value.validity == Window(notBefore, notAfter)
      && fresh(r.value.publicKey) && r.value.publicKey.keySize >= MinimumKeySize
      && r.value.privateKey == Some(r.value.publicKey)
      && r.value.hashAlgorithm == Sha256 && r.value.padding == Pkcs1
  {
    var key :- CreateKeyMaterial(MinimumKeySize, provider);
    var request := new CertificateRequest(subject, key, Sha256, Pkcs1);
    CopyExtensions(request, extensions);
    assert request.certificateExtensions == extensions;
    var result :- request.Create(issuer, notBefore, notAfter, serial);
    r := CopyWithPrivateKey(result, key);
  }

  /** CreateCaCertificate: the self-signed root, valid from the first clock
      reading until a year after the second plus the pad. */
  method CreateCaCertificate(notBeforeReading: int, notAfterReading: int, addYear: int -> int,
                             provider: int -> int, platformSerial: seq<byte>)
    returns (r: Result<Certificate>)
    ensures r.Success? <==>
      provider(MinimumKeySize) >= MinimumKeySize && CaValidity(notBeforeReading, notAfterReading, addYear).IsOrdered()
    ensures provider(MinimumKeySize) < MinimumKeySize ==> r == Failure(KeyTooSmall(MinimumKeySize))
    ensures r.Success? ==>
      && r.value.subject == CaSubject && r.value.IsSelfSigned()
      && IsCaProfile(r.value.extensions)
      && r.value.validity == CaValidity(notBeforeReading, notAfterReading, addYear)
      && fresh(r.value.publicKey) && r.value.publicKey.keySize >= MinimumKeySize
      && r.value.privateKey == Some(r.value.publicKey)
  {
    var validity := CaValidity(notBeforeReading, notAfterReading, addYear);
    var extensions := CreateCaExtensions();
    r := CreateSelfSignedCertificate(CaSubject, extensions, validity.notBefore, validity.notAfter, provider, platformSerial);
  }

  /** CreateAspNetCoreHttpsDevelopmentCertificate: the localhost certificate
      signed by `ca` for the given window. */
  method CreateAspNetCoreHttpsDevelopmentCertificate(ca: Certificate, notBefore: int, notAfter: int,
                                                     provider: int -> int, serial: Guid)
    returns (r: Result<Certificate>)
    ensures r.Success? <==>
      && provider(MinimumKeySize) >= MinimumKeySize
      && MaySignCertificates(ca) && Window(notBefore, notAfter).IsOrdered()
      && ca.validity.Contains(Window(notBefore, notAfter))
    ensures provider(MinimumKeySize) < MinimumKeySize ==> r == Failure(KeyTooSmall(MinimumKeySize))
    ensures r.Success? ==>
      && r.value.subject == Subject && r.value.issuer == ca.subject
      && ca.privateKey == Some(r.value.signingKey)
      && r.value.serialNumber == serial
      && IsHttpsProfile(r.value.extensions)
      && r.value.validity == Window(notBefore, notAfter)
      && fresh(r.value.publicKey) && r.value.publicKey.keySize >= MinimumKeySize
      && r.value.privateKey == Some(r.value.publicKey)
  {
    var extensions := CreateHttpsExtensions();
    r := CreateCertificate(ca, Subject, extensions, notBefore, notAfter, provider, serial);
  }

  /** CreateHttpsCertificate: the localhost certificate valid from one clock
      reading until a year after the next. */
  method CreateHttpsCertificate(ca: Certificate, notBeforeReading: int, notAfterReading: int, addYear: int -> int,
                                provider: int -> int, serial: Guid)
    returns (r: Result<Certificate>)
    ensures r.Success? <==>
      && provider(MinimumKeySize) >= MinimumKeySize
      && MaySignCertificates(ca)
      && HttpsValidity(notBeforeReading, notAfterReading, addYear).IsOrdered()
      && ca.validity.Contains(HttpsValidity(notBeforeReading, notAfterReading, addYear))
    ensures provider(MinimumKeySize) < MinimumKeySize ==> r == Failure(KeyTooSmall(MinimumKeySize))
    ensures r.Success? ==>
      && r.value.subject == Subject && r.value.issuer == ca.subject
      && ca.privateKey == Some(r.value.signingKey)
      && r.value.serialNumber == serial
      && IsHttpsProfile(r.value.extensions)
      && r.value.validity == HttpsValidity(notBeforeReading, notAfterReading, addYear)
      && fresh(r.value.publicKey) && r.value.publicKey.keySize >= MinimumKeySize
      && r.value.privateKey == Some(r.value.publicKey)
  {
    var validity := HttpsValidity(notBeforeReading, notAfterReading, addYear);
    r := CreateAspNetCoreHttpsDevelopmentCertificate(ca, validity.notBefore, validity.notAfter, provider, serial);
  }

  // ---------------------------------------------------------------------------
  // The run

  /** The four clock readings of a run, in the order the program takes them:
      the root's notBefore and notAfter, then the leaf's. */
  datatype ClockReadings = ClockReadings(caNotBefore: int, caNotAfter: int, httpsNotBefore: int, httpsNotAfter: int)

  /** What a run produces: the store certificates picked for removal, the
      root and the localhost certificate. */
  datatype Issued = Issued(selectedForRemoval: seq<Certificate>, ca: Certificate, https: Certificate)

  /** The readings give two ordered windows, the leaf's inside the root's. */
  predicate ClockPermitsIssuance(clock: ClockReadings, addYear: int -> int) {
    var caWindow := CaValidity(clock.caNotBefore, clock.caNotAfter, addYear);
    var httpsWindow := HttpsValidity(clock.httpsNotBefore, clock.httpsNotAfter, addYear);
    caWindow.IsOrdered() && httpsWindow.IsOrdered() && caWindow.Contains(httpsWindow)
  }

  /** The fixed sequence of the program's entry point, without the store and
      file writes: select stale certificates, create the root, create the
      localhost certificate signed by it. */
  method Run(store: seq<Certificate>, clock: ClockReadings, addYear: int -> int, provider: int -> int,
             platformSerial: seq<byte>, guid: Guid)
    returns (r: Result<Issued>)
    ensures r.Success? <==> provider(MinimumKeySize) >= MinimumKeySize && ClockPermitsIssuance(clock, addYear)
    ensures provider(MinimumKeySize) < MinimumKeySize ==> r == Failure(KeyTooSmall(MinimumKeySize))
    ensures r.Success? ==> r.value.selectedForRemoval == SelectForRemoval(store)
    ensures r.Success? ==>
      var ca := r.value.ca;
      && ca.subject == CaSubject && ca.IsSelfSigned()
      && IsCaProfile(ca.extensions) && MaySignCertificates(ca)
      && ca.validity == CaValidity(clock.caNotBefore, clock.caNotAfter, addYear)
      && ca.privateKey == Some(ca.publicKey) && ca.publicKey.keySize >= MinimumKeySize
    ensures r.Success? ==>
      var ca, https := r.value.ca, r.value.https;
      && https.subject == Subject && https.issuer == ca.subject
      && ca.privateKey == Some(https.signingKey)
      && https.publicKey != ca.publicKey
      && https.privateKey == Some(https.publicKey) && https.publicKey.keySize >= MinimumKeySize
      && |https.serialNumber| == 16
      && IsHttpsProfile(https.extensions) && !MaySignCertificates(https)
      && https.validity == HttpsValidity(clock.httpsNotBefore, clock.httpsNotAfter, addYear)
      && ca.validity.Contains(https.validity)
    ensures r.Success? ==>
      SelectForRemoval([r.value.ca, r.value.https]) == [r.value.ca, r.value.https]
  {
    var stale := SelectForRemoval(store);
    var ca :- CreateCaCertificate(clock.caNotBefore, clock.caNotAfter, addYear, provider, platformSerial);
    OnlyTheCaMaySign(ca);
    var https :- CreateHttpsCertificate(ca, clock.httpsNotBefore, clock.httpsNotAfter, addYear, provider, guid);
    OnlyTheCaMaySign(https);
    ProfilesAreSelectedForCleanup(ca);
    ProfilesAreSelectedForCleanup(https);
    r := Success(Issued(stale, ca, https));
  }

  /** On a clock that does not run backwards, with the leaf's expiry read at
      most PadSeconds after the root's and a year that keeps that gap, the
      readings permit issuance. */
  lemma SteadyClockPermitsIssuance(clock: ClockReadings, addYear: int -> int)
    requires MovesForward(addYear)
    requires clock.caNotBefore <= clock.caNotAfter <= clock.httpsNotBefore <= clock.httpsNotAfter
    requires clock.httpsNotAfter - clock.caNotAfter <= PadSeconds
    requires addYear(clock.httpsNotAfter) - addYear(clock.caNotAfter) == clock.httpsNotAfter - clock.caNotAfter
    ensures ClockPermitsIssuance(clock, addYear)
  {
  }
}

=== FILE: results.dfy ===
/** Failure-compatible wrappers and the errors this model distinguishes: the
    tool's own key-size guard and the checks of the platform calls it makes
    that the model represents. An operation that may throw one of them returns
    a `Result`. */
module Results {

  datatype Option<+T> = None | Some(value: T)

  datatype Error =
    /** The key-size guard of CreateKeyMaterial (an InvalidOperationException). */
    | KeyTooSmall(minimumKeySize: int)
    /** The platform refuses a validity window whose notAfter precedes its notBefore. */
    | DatesReversed
    /** Signing with an issuer certificate that has no bound private key. */
    | IssuerHasNoPrivateKey
    /** The issuer has no basic-constraints extension. */
    | IssuerBasicConstraintsMissing
    /** The issuer's basic-constraints extension says it is not a certificate authority. */
    | IssuerNotCertificateAuthority
    /** The issuer's key-usage extension lacks KeyCertSign. */
    | IssuerKeyUsageInadequate
    /** The requested notBefore is earlier than the issuer's notBefore. */
    | NotBeforeNotNested
    /** The requested notAfter is later than the issuer's notAfter. */
    | NotAfterNotNested
    /** The request's extensions repeat the identifier `oid`. */
    | DuplicateExtension(oid: string)
    /** CopyWithPrivateKey on a certificate that already has a private key. */
    | AlreadyHasPrivateKey
    /** CopyWithPrivateKey with a key that does not match the certificate's public key. */
    | PrivateKeyMismatch

  datatype Result<+T> = Success(value: T) | Failure(error: Error) {
    predicate IsFailure() {
      Failure?
    }

    function PropagateFailure<U>(): Result<U>
      requires Failure?
    {
      Failure(error)
    }

    function Extract(): T
      requires Success?
    {
      value
    }
  }
}

=== FILE: validity.dfy ===
/** The validity windows of the two certificates. Time is an integer count of
    seconds; "one year later" is an abstract function `addYear`, of which only
    the facts stated in each lemma are assumed. */
module Validity {
  import opened X509

  /** The pad added to the root's expiry so that a leaf issued moments later
      still expires within it. */
  const PadSeconds := 5

  /** "Adding a year" moves every instant strictly forward. */
  ghost predicate MovesForward(addYear: int -> int) {
    forall t :: addYear(t) > t
  }

  /** The root's window from two readings of the clock: the first gives
      notBefore, the second plus a year plus the pad gives notAfter. */
  function CaValidity(notBeforeReading: int, notAfterReading: int, addYear: int -> int): (w: Window)
    ensures w.notBefore == HttpsValidity(notBeforeReading, notAfterReading, addYear).notBefore
    ensures w.notAfter == HttpsValidity(notBeforeReading, notAfterReading, addYear).notAfter + PadSeconds
  {
    Window(notBeforeReading, addYear(notAfterReading) + PadSeconds)
  }

  /** The leaf's window from two readings of the clock, without a pad. */
  function HttpsValidity(notBeforeReading: int, notAfterReading: int, addYear: int -> int): (w: Window)
    ensures w.notBefore == notBeforeReading
    ensures MovesForward(addYear) ==> notAfterReading < w.notAfter
  {
    Window(notBeforeReading, addYear(notAfterReading))
  }

  lemma CaValidityIsNonEmpty(notBeforeReading: int, notAfterReading: int, addYear: int -> int)
    requires MovesForward(addYear) && notBeforeReading <= notAfterReading
    ensures CaValidity(notBeforeReading, notAfterReading, addYear).notBefore
            < CaValidity(notBeforeReading, notAfterReading, addYear).notAfter
  {
  }

  lemma HttpsValidityIsNonEmpty(notBeforeReading: int, notAfterReading: int, addYear: int -> int)
    requires MovesForward(addYear) && notBeforeReading <= notAfterReading
    ensures HttpsValidity(notBeforeReading, notAfterReading, addYear).notBefore
            < HttpsValidity(notBeforeReading, notAfterReading, addYear).notAfter
  {
  }

  /** With one clock reading for everything, the leaf's window lies inside the
      root's and expires strictly before it. */
  lemma SameReadingNests(now: int, addYear: int -> int)
    ensures CaValidity(now, now, addYear).Contains(HttpsValidity(now, now, addYear))
    ensures HttpsValidity(now, now, addYear).notAfter < CaValidity(now, now, addYear).notAfter
  {
  }

  /** The pad is enough when the clock does not run backwards between the
      readings, the leaf's expiry reading comes at most PadSeconds after the
      root's, and adding a year keeps the gap between those two readings (as
      calendar arithmetic does away from a leap day). */
  lemma PadCoversShortDelay(caReadings: (int, int), httpsReadings: (int, int), addYear: int -> int)
    requires caReadings.0 <= caReadings.1 <= httpsReadings.0 <= httpsReadings.1
    requires httpsReadings.1 - caReadings.1 <= PadSeconds
    requires addYear(httpsReadings.1) - addYear(caReadings.1) == httpsReadings.1 - caReadings.1
    ensures CaValidity(caReadings.0, caReadings.1, addYear).Contains(HttpsValidity(httpsReadings.0, httpsReadings.1, addYear))
  {
  }

  /** The pad is not enough in general: with a year of 365 days and the leaf's
      expiry read six seconds after the root's, the leaf outlives the root. */
  lemma PadCanBeExceeded()
    ensures var addYear := t => t + 365 * 24 * 60 * 60;
      && MovesForward(addYear)
      && CaValidity(0, 0, addYear).notAfter < HttpsValidity(6, 6, addYear).notAfter
      && !CaValidity(0, 0, addYear).Contains(HttpsValidity(6, 6, addYear))
  {
  }

  /** More generally, whenever the leaf's expiry is read more than PadSeconds
      after the root's and adding a year keeps that gap, the leaf outlives the
      root. */
  lemma PadInsufficientForLongerDelay(caReadings: (int, int), httpsReadings: (int, int), addYear: int -> int)
    requires httpsReadings.1 - caReadings.1 > PadSeconds
    requires addYear(httpsReadings.1) - addYear(caReadings.1) == httpsReadings.1 - caReadings.1
    ensures CaValidity(caReadings.0, caReadings.1, addYear).notAfter
            < HttpsValidity(httpsReadings.0, httpsReadings.1, addYear).notAfter
    ensures !CaValidity(caReadings.0, caReadings.1, addYear).Contains(HttpsValidity(httpsReadings.0, httpsReadings.1, addYear))
  {
  }

  /** The gap-keeping hypothesis is needed: a forward-moving year that is one
      day longer from some instant on (as adding a calendar year is for
      instants after the end of February before a leap year) breaks nesting
      for expiry readings only 3 seconds apart. */
  lemma UnevenYearBreaksNesting()
    ensures var addYear := t => if t < 3 then t + 365 * 24 * 60 * 60 else t + 366 * 24 * 60 * 60;
      && MovesForward(addYear)
      && CaValidity(0, 0, addYear).notAfter < HttpsValidity(3, 3, addYear).notAfter
      && !CaValidity(0, 0, addYear).Contains(HttpsValidity(3, 3, addYear))
  {
  }
}

=== FILE: x509.dfy ===
/** The values a certificate is made of (RFC 5280): object identifiers,
    extensions, validity windows, keys and issued certificates. */
module X509 {
  import opened Results

  newtype byte = x: int | 0 <= x < 256

  /** An object identifier with the friendly name the caller attaches to it. */
  datatype ObjectId = ObjectId(value: string, friendlyName: string)

  // Object identifiers of the standard extensions, RFC 5280 section 4.2.1.
  const BasicConstraintsOid := "2.5.29.19"
  const KeyUsageOid := "2.5.29.15"
  const EnhancedKeyUsageOid := "2.5.29.37"
  const SubjectAltNameOid := "2.5.29.17"

  /** The bits of the key-usage extension, RFC 5280 section 4.2.1.3. A combination
      of flags (a bitwise or) is a set of them. */
  datatype KeyUsageFlag =
    | DigitalSignature | NonRepudiation | KeyEncipherment | DataEncipherment
    | KeyAgreement | KeyCertSign | CrlSign | EncipherOnly | DecipherOnly

  /** What an extension says. The typed variants are the platform's extension
      classes, whose object identifier is fixed by the class; `Raw` is a generic
      extension that carries its own identifier and bytes. */
  datatype ExtensionValue =
    | BasicConstraints(certificateAuthority: bool, hasPathLengthConstraint: bool, pathLengthConstraint: int)
    | KeyUsage(usages: set<KeyUsageFlag>)
    | EnhancedKeyUsage(purposes: seq<ObjectId>)
    | SubjectAltName(dnsNames: seq<string>)
    | Raw(id: ObjectId, rawData: seq<byte>)

  datatype Extension = Extension(value: ExtensionValue, critical: bool) {
    /** The dotted object identifier of this extension. */
    function Oid(): string {
      match value
      case BasicConstraints(_, _, _) => BasicConstraintsOid
      case KeyUsage(_) => KeyUsageOid
      case EnhancedKeyUsage(_) => EnhancedKeyUsageOid
      case SubjectAltName(_) => SubjectAltNameOid
      case Raw(id, _) => id.value
    }
  }

  /** No object identifier occurs twice in an extension list. */
  predicate DistinctOids(extensions: seq<Extension>) {
    forall i, j :: 0 <= i < j < |extensions| ==> extensions[i].Oid() != extensions[j].Oid()
  }

  /** The identifier of the first extension, in list order, whose identifier
      already occurred earlier in the list, as a pass that records every
      identifier it has seen finds it. */
  function FirstRepeatedOid(extensions: seq<Extension>): (oid: Option<string>)
    ensures oid.None? <==> DistinctOids(extensions)
    ensures oid.Some? ==>
      exists i, j :: 0 <= i < j < |extensions| && extensions[i].Oid() == oid.value && extensions[j].Oid() == oid.value
  {
    if extensions == [] then None
    else
      var front, last := extensions[..|extensions| - 1], extensions[|extensions| - 1];
      match FirstRepeatedOid(front)
      case Some(oid) => Some(oid)
      case None =>
        if exists i :: 0 <= i < |front| && front[i].Oid() == last.Oid() then Some(last.Oid()) else None
  }

  /** The first extension with the given identifier, as an indexed lookup on a
      certificate's extension collection finds it. */
  function FindExtension(extensions: seq<Extension>, oid: string): (found: Option<Extension>)
    ensures found.Some? ==> found.value in extensions && found.value.Oid() == oid
    ensures found.None? ==> forall e :: e in extensions ==> e.Oid() != oid
  {
    if extensions == [] then None
    else if extensions[0].Oid() == oid then Some(extensions[0])
    else FindExtension(extensions[1..], oid)
  }

  /** A validity window; time is counted in whole seconds. */
  datatype Window = Window(notBefore: int, notAfter: int) {
    predicate IsOrdered() {
      notBefore <= notAfter
    }

    predicate Contains(inner: Window) {
      notBefore <= inner.notBefore && inner.notAfter <= notAfter
    }
  }

  /** An RSA key pair. Object identity stands for the key material, so two keys
      are the same key exactly when they are the same object. */
  class RsaKey {
    const keySize: int

    constructor (keySize: int)
      ensures this.keySize == keySize
    {
      this.keySize := keySize;
    }
  }

  datatype HashAlgorithmName = Sha256
  datatype RsaSignaturePadding = Pkcs1

  /** An issued certificate. `signingKey` is the key whose private half signed
      it, so the certificate verifies against that key's public half;
      `privateKey` is the private key bound to the certificate, if any. */
  datatype Certificate = Certificate(
    subject: string,
    issuer: string,
    serialNumber: seq<byte>,
    validity: Window,
    extensions: seq<Extension>,
    publicKey: RsaKey,
    privateKey: Option<RsaKey>,
    signingKey: RsaKey,
    hashAlgorithm: HashAlgorithmName,
    padding: RsaSignaturePadding)
  {
    predicate IsSelfSigned() {
      issuer == subject && signingKey == publicKey
    }
  }
}
